=== FILE: README.md ===
# Countdown timer extension: a Dafny model of its timer core

This project models the timer core of a browser extension that shows a countdown overlay on web pages. The core has four parts:

- **The background service worker** keeps one record, `timerState`, with the fields `isRunning`, `isPaused`, `remainingTime`, `endTime` and `selectedDuration`. The message handlers `startTimer`, `stopTimer`, `pauseTimer`, `resumeTimer`, `resetTimer` and `getTimerState` change it in place. So do the `timerTick` alarm handler and the startup restore. The record is also kept in `chrome.storage.local`, and a repeating alarm drives the ticks.
- **The standalone timer window** keeps its own timer as separate storage keys: `timerActive`, `timerStartTime`, `timerTotalSeconds`, `timerPaused`, `timerPausedSeconds` and others. It computes the remaining seconds from a start timestamp.
- **The overlay frame** turns the background's state into a clock text, a status text and a pause icon. It also remembers the total time of the countdown it is showing.
- **The popup** shows or hides a countdown block with a clock text and a label.

Time is an integer number of milliseconds, `now`, passed to every operation in place of `Date.now()`. JavaScript's `Math.ceil(x / 1000)` is modelled as `(x + 999) / 1000`, and `Math.floor(x / 1000)` as `x / 1000`. For a positive divisor Dafny's division rounds down, so both formulas are exact for any integer `x`. JavaScript's `%` truncates toward zero and is modelled as `JsRem60`. A `null` deadline is 0 under subtraction (`EndMillis`). A stored value that may be `undefined`, `null` or a number is a `Slot`, and `||` on such values follows JavaScript truthiness (`Standalone.Or`).

Modules:

- `Wrappers` (wrappers.dfy): `Option`.
- `Clock` (clock.dfy): the `m:ss` and `mm:ss` clock texts. `ParseClock` reads a text back, so the round trip can be stated.
- `Background` (background.dfy): the record and one function per handler (`AfterStart` … `AfterRestore`), plus lemmas relating them. The class `TimerService` has the record's fields, the stored copy (`saved`) and the alarm flag (`tickAlarm`). Each handler is a method whose postcondition ties the new fields to the matching function.
- `Standalone` (standalone.dfy): the storage keys (`Keys`) and one function per write. The class `StandaloneWindow` holds the keys and the refresh interval (`ticking`).
- `Overlay` (overlay.dfy): what `updateDisplay` writes, plus the class `OverlayFrame` that holds `totalTime`.
- `Popup` (popup.dfy): what `checkTimerState` shows.

Behaviours of the source that the lemmas make explicit:

- `getTimerState` writes `remainingTime`.
- `resetTimer` unpauses.
- `stopTimer` keeps `selectedDuration`.
- The tick that finishes the timer leaves `endTime` set.
- The startup restore always agrees with the stored deadline, whatever `remainingTime` was stored. It can move the deadline later by less than a second.
- Resetting a paused timer does not re-create the tick alarm (`ResetWhilePausedLeavesNoTick`).
- In the standalone window, resuming a pause taken at 0 seconds restarts the whole old total, because `timerPausedSeconds || timerTotalSeconds` treats 0 as missing (`PauseAtZeroThenResumeStartsOver`).
- Starting the standalone window with 0 minutes stores a total of 0, which is falsy. The window shows the buttons and the timer stays marked active (`StartWithoutMinutesShowsOptions`).
- A start timestamp of 0 is also falsy and reads as "now". Lemmas that count down from a start time therefore take a positive clock reading.

## Model

| member | source | states |
|---|---|---|
| `Background.CeilSeconds` | src/background.js:123 | the result is the least whole number of seconds covering the milliseconds: (s-1)*1000 < ms <= s*1000 |
| `Background.SecondsLeft` | src/background.js:158 | whole seconds to the deadline: never negative, 0 exactly from the deadline on, otherwise the ceiling of the milliseconds left |
| `Background.AfterStart` | src/background.js:44-48 | startTimer makes a well-formed running, unpaused record with remainingTime == selectedDuration == duration and a deadline duration*1000 ms after now |
| `Background.AfterStop` | src/background.js:85-88 | stopTimer stops and unpauses, zeroes remainingTime, nulls endTime and keeps selectedDuration |
| `Background.AfterPause` | src/background.js:120-130 | pauseTimer acts only on a running, unpaused timer: sets isPaused and freezes remainingTime at SecondsLeft(endTime, now), the whole seconds to the deadline, changing nothing else; in any other state nothing changes; well-formedness is kept |
| `Background.AfterResume` | src/background.js:132-142 | resumeTimer acts only on a running, paused timer: clears isPaused and sets the deadline remainingTime*1000 ms after now, changing nothing else; otherwise nothing changes |
| `Background.AfterReset` | src/background.js:144-154 | resetTimer acts only on a running timer: unpauses it, sets remainingTime to selectedDuration and the deadline to now + selectedDuration*1000; otherwise nothing changes |
| `Background.AfterRead` | src/background.js:156-161 | getTimerState changes at most remainingTime, only while running and unpaused, to SecondsLeft(endTime, now): non-negative, 0 exactly from the deadline on |
| `Background.AfterTick` | src/background.js:166-173 | a tick keeps the deadline and selectedDuration; on a running, unpaused timer it sets the seconds left and stops the timer exactly when the deadline has passed; in any other state nothing changes |
| `Background.AfterRestore` | src/background.js:227-236 | the startup correction keeps well-formedness, selectedDuration and isPaused, and changes nothing unless the timer is running and unpaused; otherwise it writes a non-negative remainingTime, sets the deadline to now + remainingTime*1000 (now itself when nothing is left) and keeps the timer running exactly when time is left |
| `Background.StartCountsDown` | src/background.js:44-48 | a timer started with d seconds at t0 reads d - k seconds at t0 + k*1000 for 0 <= k <= d, reaching 0 at the deadline |
| `Background.ReadNonIncreasing` | src/background.js:156-161 | with the deadline fixed, the value getTimerState writes never grows as now grows, and is 0 from the deadline on |
| `Background.PauseIdempotent` | src/background.js:120-130 | pausing twice equals pausing once |
| `Background.PauseResumeRoundTrip` | src/background.js:120-161 | pause at t then resume at t sets endTime = t + remainingTime*1000, and getTimerState at t returns the remaining time the pause froze |
| `Background.StoppedTimerIsInert` | src/background.js:120-173 | on a stopped or finished timer, pause, resume, reset, ticks and reads change nothing |
| `Background.FinishingTickKeepsDeadline` | src/background.js:166-173 | the tick that finds no time left clears isRunning and isPaused, sets remainingTime 0 and leaves endTime non-null |
| `Background.RestoreFollowsDeadline` | src/background.js:227-236 | restore sets remainingTime to the seconds left before the stored deadline, whatever remainingTime was stored; it keeps running exactly when now is before the deadline; the new deadline is the old one moved later by less than 1000 ms |
| `Background.RestoreAfterThreeSeconds` | src/background.js:227-236 | a timer stored with a deadline 10 s away and restored 3 s later has 7 s left |
| `Background.PauseResumeScenario` | src/background.js:120-142 | start(60), pause 5 s later: 55 s are frozen; resume after any gap; 10 s later 45 s are left |
| `Background.TimerService.constructor` | src/background.js:2-8 | a starting worker holds the initial record, with storage and the alarm schedule as they were |
| `Background.TimerService.StartTimer` | src/background.js:43-61 | the record becomes AfterStart(duration, now), is stored, and the tick alarm is scheduled |
| `Background.TimerService.StopTimer` | src/background.js:84-97 | the record becomes AfterStop of the old one, is stored, and the tick alarm is cleared |
| `Background.TimerService.PauseTimer` | src/background.js:120-130 | the record becomes AfterPause of the old one; when it acted, it is stored and the alarm is cleared; otherwise storage and alarm are untouched |
| `Background.TimerService.ResumeTimer` | src/background.js:132-142 | the record becomes AfterResume of the old one; when it acted, it is stored and the alarm is scheduled |
| `Background.TimerService.ResetTimer` | src/background.js:144-154 | the record becomes AfterReset of the old one; when it acted, it is stored; the alarm schedule is never touched |
| `Background.TimerService.GetTimerState` | src/background.js:156-161 | the record becomes AfterRead of the old one and is returned; storage and alarm are untouched |
| `Background.TimerService.OnAlarm` | src/background.js:164-194 | only the timerTick alarm on a running, unpaused timer acts: the record becomes AfterTick of the old one and is stored, and the alarm is cleared when the timer stops |
| `Background.TimerService.OnStartup` | src/background.js:220-242 | with a stored record, the record becomes AfterRestore of it; the alarm is scheduled when the stored record was running and unpaused and still has time left, and otherwise the schedule is unchanged; without one, nothing changes; storage is never written |
| `Background.ResetWhilePausedLeavesNoTick` | src/background.js:120-154 | start, pause, then reset leaves a running, unpaused timer with no tick alarm scheduled |
| `Standalone.Or` | src/timer/timer-standalone.js:163 | JavaScript's "a or b" keeps a when it is a non-zero number, otherwise gives b |
| `Standalone.RunningSeconds` | src/timer/timer-standalone.js:56-57 | the running remainder is never negative and at most the total once started; with a truthy start, a positive remainder s means the elapsed milliseconds lie in [(total-s)*1000, (total-s+1)*1000), and it is 0 exactly when total*1000 ms have elapsed; with a falsy start it is the whole total |
| `Standalone.StatusSeconds` | src/timer/timer-standalone.js:48-58 | no value unless active with a truthy total; while paused the stored paused seconds; otherwise RunningSeconds of the stored total and start time |
| `Standalone.PauseLabel` | src/timer/timer-standalone.js:83-89 | the button reads "Resume" exactly when the timer is paused and "Pause" exactly when it is not |
| `Standalone.StatusView` | src/timer/timer-standalone.js:60-70 | the countdown is shown exactly when the computed seconds are positive, as the mm:ss text with the pause-button label; otherwise the buttons |
| `Standalone.AfterStatus` | src/timer/timer-standalone.js:60-67 | only timerActive changes; it becomes false exactly when the computed seconds are 0 or below |
| `Standalone.AfterStart` | src/timer/timer-standalone.js:186-194 | startTimer stores an active, unpaused timer started now with minutes*60 seconds and null paused fields |
| `Standalone.AfterStop` | src/timer/timer-standalone.js:206-209 | stopTimer writes only timerActive = false and timerPaused = false |
| `Standalone.AfterToggle` | src/timer/timer-standalone.js:136-171 | no change when inactive; pausing stores timerPaused, the pause time and the running remainder; resuming restarts the clock at now with total "timerPausedSeconds or timerTotalSeconds" and null paused fields |
| `Standalone.PausedSecondsIgnoreClock` | src/timer/timer-standalone.js:51-53 | while paused, the remaining seconds are the stored paused seconds at every clock reading |
| `Standalone.RunningSecondsNonIncreasing` | src/timer/timer-standalone.js:121-122 | the running remainder never grows as now grows |
| `Standalone.PauseResumeKeepsSeconds` | src/timer/timer-standalone.js:144-171 | pausing and resuming at the same instant keeps a positive remainder, leaving the timer active and unpaused |
| `Standalone.PauseAtZeroThenResumeStartsOver` | src/timer/timer-standalone.js:163-168 | a pause taken when the countdown reaches 0, then resumed, gives the whole old total again |
| `Standalone.StartShowsFullTime` | src/timer/timer-standalone.js:186-196 | after startTimer(m) with m > 0 the window shows the mm:ss text of m*60 with "Pause"; m minutes later 0 seconds are left |
| `Standalone.StartWithoutMinutesShowsOptions` | src/timer/timer-standalone.js:48-67 | after startTimer(m) with m <= 0 the window shows the buttons; timerActive stays true exactly when m == 0 |
| `Standalone.StandaloneWindow.constructor` | src/timer/timer-standalone.js:10-13 | an opening window sees the stored keys, with no interval running |
| `Standalone.StandaloneWindow.UpdateTimerStatus` | src/timer/timer-standalone.js:37-75 | returns StatusView; storage becomes AfterStatus; the interval runs exactly when the countdown is shown unpaused |
| `Standalone.StandaloneWindow.IntervalFired` | src/timer/timer-standalone.js:117-131 | on an active, unpaused timer, shows the new mm:ss text while time is left; at 0 it shows the buttons, marks the timer inactive and stops; otherwise changes nothing |
| `Standalone.StandaloneWindow.TogglePause` | src/timer/timer-standalone.js:136-181 | storage becomes AfterToggle; returns "Resume" after pausing and "Pause" after resuming, and None when inactive; the interval stops on pause and runs on resume |
| `Standalone.StandaloneWindow.StartTimer` | src/timer/timer-standalone.js:183-201 | stores AfterStart, then behaves as updateTimerStatus on it |
| `Standalone.StandaloneWindow.StopTimer` | src/timer/timer-standalone.js:203-215 | storage becomes AfterStop; the buttons are shown and the interval stopped |
| `Clock.Digits` | src/popup/popup.js:88 | String(n) for n >= 0: a non-empty string of decimal digits, one digit exactly when n < 10, with no leading zero |
| `Clock.JsString` | src/popup/popup.js:88 | String(i) is the digits of i, with a leading '-' when i is negative |
| `Clock.JsRem60` | src/popup/popup.js:87 | `a % 60` differs from a by a multiple of 60 and has a's sign, with absolute value below 60 |
| `Clock.PadStart2` | src/popup/popup.js:88 | padStart(2, '0') keeps strings of length 2 or more, and zero-fills shorter ones to length 2 on the left |
| `Clock.TwoDigits` | src/popup/popup.js:88 | a number below 100, padded, is its tens digit then its units digit, and reads back as itself |
| `Clock.ShortClock` | src/popup/popup.js:86-88 | for s >= 0 the m:ss text (also written by src/timer/timer.js:108-112) is the unpadded minutes, ':' and exactly two seconds digits, the first below 6 |
| `Clock.ShortClockRoundTrip` | src/popup/popup.js:86-88 | the m:ss text of s >= 0 reads back as (s/60, s%60), and minutes*60 + seconds == s |
| `Clock.PaddedClock` | src/timer/timer-standalone.js:103-107 | for 0 <= s < 6000 the mm:ss text is exactly two minute digits, ':' and two second digits |
| `Clock.PaddedClockRoundTrip` | src/timer/timer-standalone.js:103-107 | the mm:ss text of s >= 0 reads back as (s/60, s%60) |
| `Overlay.Rendered` | src/timer/timer.js:90-123 | for a stopped timer or one with no time left: "0:00", no icon write, and "Timer Finished!" exactly when remainingTime == 0 and not running, otherwise "Ready"; for a countdown: the m:ss text with "Paused"/▶ when paused and "Running"/⏸ otherwise |
| `Overlay.TotalAfter` | src/timer/timer.js:85-103 | totalTime is cleared whenever "0:00" is shown; a countdown state captures remainingTime only while totalTime is null and otherwise keeps it |
| `Overlay.TotalCapturedOnce` | src/timer/timer.js:85-87 | over a run of countdown states, totalTime is the remainingTime of the first one; later states never replace it |
| `Overlay.PauseButtonAction` | src/timer/timer.js:21-28 | no action without a state; "resumeTimer" exactly when the state is paused, "pauseTimer" exactly when it is not |
| `Overlay.PauseButtonToggles` | src/timer/timer.js:23-27 | for a running timer, carrying out the chosen action flips isPaused |
| `Overlay.ExpiredBeforeTickShowsReady` | src/timer/timer.js:90-95 | a running timer read at or after its deadline, before the stopping tick, shows "0:00" and "Ready" |
| `Overlay.FinishedTickShowsFinished` | src/timer/timer.js:90-95 | after the tick that stops the timer, the overlay shows "0:00" and "Timer Finished!" |
| `Overlay.OverlayFrame.constructor` | src/timer/timer.js:8 | totalTime starts null |
| `Overlay.OverlayFrame.UpdateDisplay` | src/timer/timer.js:75-133 | a missing state changes nothing; otherwise returns Rendered(state) and totalTime becomes TotalAfter(old totalTime, state) |
| `Popup.StatusLabel` | src/popup/popup.js:94-98 | "Timer Paused" exactly when paused, "Timer Active" exactly when not |
| `Popup.CheckedDisplay` | src/popup/popup.js:65-73 | nothing is written without an answer; the block is shown exactly when running with remainingTime > 0, with the m:ss text and the label |
| `Popup.PopupAgreesWithOverlay` | src/popup/popup.js:68-88 | the popup shows its block exactly when the overlay shows a countdown, with the same clock text, and says "Timer Paused" exactly when the overlay says "Paused" |
| `Popup.ShownClockReadsBack` | src/popup/popup.js:85-88 | a shown clock reads back as minutes and seconds with minutes*60 + seconds == remainingTime, and ends in two seconds digits |
| `Popup.HiddenAfterDeadline` | src/popup/popup.js:68-73 | once a running timer's deadline has passed, the block is hidden, even before the stopping tick |

## Left out

- `chrome.runtime` messaging is not modelled: the async dispatcher (src/background.js:11-41), the popup's `startTimer`/`stopTimer` senders and their error handling. Each command is a direct call of the matching `TimerService` method, and the overlay's button returns the action name it would send.
- Fan-out to tabs is not modelled (`showTimerOnAllTabs`, `hideTimerOnAllTabs`, `broadcastTimerUpdate`). These are per-tab sends with swallowed errors. `broadcastTimerUpdate` calls `getTimerState` and so rewrites `remainingTime`; the model gets that effect by calling `GetTimerState` separately.
- Storage is one field per key, written at once. Failures of `chrome.storage` reads and writes and the `catch` branches that log them are left out, because they are I/O.
- The alarm registry is one flag, `tickAlarm`. Its one-second period and delivery are left out, because they are scheduling. A tick is a call of `OnAlarm`. The model does not tie such a call to `tickAlarm` being set, so it shows that an alarm is not re-created, not that no tick can arrive.
- `chrome.notifications.create` on finish is left out, because it is an external effect.
- `onInstalled` restore (src/background.js:245-254) is left out: it is a plain copy of the stored record.
- The progress-bar percentage (src/timer/timer.js:125-130) is left out, because it is floating point.
- DOM writes are left out. The model returns the strings that would be written. Button classes, `disabled` flags, show/hide of containers other than through `View` and `Display`, and `window.close` are left out as presentation.
- The overlay's and the popup's `setInterval` polling is left out. So is the one-second schedule of the standalone window's interval: one firing is a call of `StandaloneWindow.IntervalFired`, and whether the interval is live is the field `ticking`. Races between ticks, polls and commands are left out too. These are scheduling and concurrency.
- Background.TimerService.OnStartup: the source reads `Date.now()` twice (src/background.js:228, 230). The model uses one `now` for both.
- Standalone.RunningSeconds: the source evaluates `Date.now() - (timerStartTime || Date.now())` (src/timer/timer-standalone.js:56, 121, 146) with two clock readings. The model uses one `now` for both. With a falsy start time, a second reading 1 ms later would give `Math.floor(-1 / 1000) == -1` and a remainder of total + 1, which the model does not show.
- JavaScript numbers are doubles, exact for integers only below 2^53. The model uses unbounded integers, so rounding of very large timestamps or durations is not modelled.
- Standalone: `parseInt` of the button's minutes is an integer here; `NaN` is not modelled. The `timerMinutes` key is stored but never read.
- src/content/content.js (iframe creation, dragging, viewport clamping) and src/background/background.js (window management) are not part of this model.

=== FILE: background.dfy ===
/**
 * The background service worker's countdown (src/background.js).
 *
 * One record, `timerState`, holds the timer. Each message handler (start,
 * stop, pause, resume, reset, getTimerState), the `timerTick` alarm handler
 * and the startup restore overwrite fields of that record in place. The
 * record also lives in `chrome.storage.local` under the key `timerState`,
 * and a repeating alarm named `timerTick` drives the ticks.
 *
 * The functions After* give the record after each handler, as a function of
 * the record before it and of the clock reading `now` (integer milliseconds,
 * what `Date.now()` returns). The class TimerService holds the fields and
 * implements the handlers; each method's postcondition ties its new state
 * to the matching After* function. The lemmas state what the handlers
 * promise about each other.
 */
module Background {
  import opened Wrappers
  import Clock

  /** The fields of `timerState`; `endTime` is a deadline in milliseconds or null. */
  datatype TimerRecord = TimerRecord(
    isRunning: bool,
    isPaused: bool,
    remainingTime: int,
    endTime: Option<int>,
    selectedDuration: int)

  /** The value `timerState` has when the service worker starts. */
  const Initial := TimerRecord(false, false, 0, None, 0)

  /** The name of the repeating alarm whose firing is a tick. */
  const TickAlarm := "timerTick"

  /**
   * The combinations the handlers can produce: a paused timer is running,
   * and a running timer has a deadline.
   */
  predicate WellFormed(r: TimerRecord) {
    && (r.isPaused ==> r.isRunning)
    && (r.isRunning ==> r.endTime.Some?)
  }

  /** A deadline as a number; JavaScript turns a null `endTime` into 0 under subtraction. */
  function EndMillis(endTime: Option<int>): int {
    match endTime
    case None => 0
    case Some(t) => t
  }

  /** `Math.ceil(ms / 1000)` for an integral ms. */
  function CeilSeconds(ms: int): (s: int)
    ensures (s - 1) * 1000 < ms <= s * 1000
  {
    (ms + 999) / 1000
  }

  /** `Math.max(0, Math.ceil((endTime - now) / 1000))`: whole seconds until the deadline. */
  function SecondsLeft(endTime: Option<int>, now: int): (s: int)
    ensures s >= 0
    ensures s == 0 <==> now >= EndMillis(endTime)
    ensures s > 0 ==> (s - 1) * 1000 < EndMillis(endTime) - now <= s * 1000
  {
    Clock.Max(0, CeilSeconds(EndMillis(endTime) - now))
  }

  /** startTimer(duration): every field is overwritten (background.js:44-48). */
  function AfterStart(duration: int, now: int): (r: TimerRecord)
    ensures WellFormed(r) && r.isRunning && !r.isPaused
    ensures r.remainingTime == r.selectedDuration == duration
    ensures EndMillis(r.endTime) - now == duration * 1000
  {
    TimerRecord(true, false, duration, Some(now + duration * 1000), duration)
  }

  /** stopTimer(): clears the countdown but keeps `selectedDuration` (background.js:85-88). */
  function AfterStop(r: TimerRecord): (r': TimerRecord)
    ensures WellFormed(r')
    ensures !r'.isRunning && r'.remainingTime == 0 && r'.endTime.None?
    ensures r'.selectedDuration == r.selectedDuration
  {
    r.(isRunning := false, isPaused := false, remainingTime := 0, endTime := None)
  }

  /** pauseTimer(): acts only on a running, unpaused timer (background.js:121-123). */
  function AfterPause(r: TimerRecord, now: int): (r': TimerRecord)
    ensures WellFormed(r) ==> WellFormed(r')
    ensures r.isRunning && !r.isPaused ==>
      r' == r.(isPaused := true, remainingTime := r'.remainingTime) && r'.remainingTime >= 0
    ensures r.isRunning && !r.isPaused ==> r'.remainingTime == SecondsLeft(r.endTime, now)
    ensures !(r.isRunning && !r.isPaused) ==> r' == r
  {
    if r.isRunning && !r.isPaused then
      r.(isPaused := true, remainingTime := SecondsLeft(r.endTime, now))
    else
      r
  }

  /** resumeTimer(): acts only on a paused running timer (background.js:133-135). */
  function AfterResume(r: TimerRecord, now: int): (r': TimerRecord)
    ensures WellFormed(r) ==> WellFormed(r')
    ensures r.isRunning && r.isPaused ==>
      r' == r.(isPaused := false, endTime := r'.endTime) && r'.endTime.Some?
    ensures r.isRunning && r.isPaused ==> EndMillis(r'.endTime) - now == r.remainingTime * 1000
    ensures !(r.isRunning && r.isPaused) ==> r' == r
  {
    if r.isRunning && r.isPaused then
      r.(isPaused := false, endTime := Some(now + r.remainingTime * 1000))
    else
      r
  }

  /** resetTimer(): re-arms the selected duration of a running timer and unpauses it (background.js:145-148). */
  function AfterReset(r: TimerRecord, now: int): (r': TimerRecord)
    ensures WellFormed(r) ==> WellFormed(r')
    ensures r.isRunning ==>
      && r'.isRunning && !r'.isPaused
      && r'.remainingTime == r'.selectedDuration == r.selectedDuration
      && EndMillis(r'.endTime) - now == r.selectedDuration * 1000
    ensures !r.isRunning ==> r' == r
  {
    if r.isRunning then
      r.(isPaused := false, remainingTime := r.selectedDuration, endTime := Some(now + r.selectedDuration * 1000))
    else
      r
  }

  /** getTimerState(): refreshes `remainingTime` of a running, unpaused timer from the deadline (background.js:157-158). */
  function AfterRead(r: TimerRecord, now: int): (r': TimerRecord)
    ensures r' == r.(remainingTime := r'.remainingTime)
    ensures r.isRunning && !r.isPaused ==>
      r'.remainingTime >= 0 && (r'.remainingTime == 0 <==> now >= EndMillis(r.endTime))
    ensures r.isRunning && !r.isPaused ==> r'.remainingTime == SecondsLeft(r.endTime, now)
    ensures !(r.isRunning && !r.isPaused) ==> r' == r
  {
    if r.isRunning && !r.isPaused then r.(remainingTime := SecondsLeft(r.endTime, now)) else r
  }

  /**
   * The `timerTick` alarm handler's effect on the record (background.js:166-173):
   * a running, unpaused timer gets its remaining seconds, and stops when they
   * reach zero; its deadline stays as it was.
   */
  function AfterTick(r: TimerRecord, now: int): (r': TimerRecord)
    ensures WellFormed(r) ==> WellFormed(r')
    ensures r'.endTime == r.endTime && r'.selectedDuration == r.selectedDuration
    ensures r.isRunning && !r.isPaused ==>
      && r'.remainingTime == SecondsLeft(r.endTime, now)
      && (r'.isRunning <==> now < EndMillis(r.endTime))
      && !r'.isPaused
    ensures !(r.isRunning && !r.isPaused) ==> r' == r
  {
    if r.isRunning && !r.isPaused then
      var remaining := SecondsLeft(r.endTime, now);
      if remaining <= 0 then
        r.(remainingTime := remaining, isRunning := false, isPaused := false)
      else
        r.(remainingTime := remaining)
    else
      r
  }

  /**
   * The startup restore's correction of a loaded record (background.js:227-236):
   * a running, unpaused timer loses the whole seconds elapsed since its
   * stored `remainingTime` was taken, gets a new deadline `now +
   * remainingTime * 1000`, and stops if nothing is left.
   */
  function AfterRestore(r: TimerRecord, now: int): (r': TimerRecord)
    ensures WellFormed(r) ==> WellFormed(r')
    ensures r'.selectedDuration == r.selectedDuration && r'.isPaused == r.isPaused
    ensures r.isRunning && !r.isPaused ==>
      && r'.remainingTime >= 0
      && r'.endTime == Some(now + r'.remainingTime * 1000)
      && (r'.isRunning <==> r'.remainingTime > 0)
    ensures !(r.isRunning && !r.isPaused) ==> r' == r
  {
    if r.isRunning && !r.isPaused then
      var elapsed := now - (EndMillis(r.endTime) - r.remainingTime * 1000);
      var remaining := Clock.Max(0, r.remainingTime - elapsed / 1000);
      var r1 := r.(remainingTime := remaining, endTime := Some(now + remaining * 1000));
      if remaining > 0 then r1 else r1.(isRunning := false)
    else
      r
  }

  /**
   * A timer started with d >= 0 seconds at t0 reads d - k seconds at
   * t0 + k * 1000 for every 0 <= k <= d: it counts down by one each second
   * and reaches exactly 0 at its deadline.
   */
  lemma StartCountsDown(d: int, t0: int, k: int)
    requires 0 <= k <= d
    ensures AfterRead(AfterStart(d, t0), t0 + k * 1000).remainingTime == d - k
  {
  }

  /** With the deadline fixed, the value getTimerState writes never grows as the clock advances, and is 0 from the deadline on. */
  lemma ReadNonIncreasing(r: TimerRecord, t1: int, t2: int)
    requires r.isRunning && !r.isPaused && t1 <= t2
    ensures AfterRead(r, t2).remainingTime <= AfterRead(r, t1).remainingTime
    ensures t1 >= EndMillis(r.endTime) ==> AfterRead(r, t1).remainingTime == 0
  {
  }

  /** Pausing twice is pausing once, whatever the clock says the second time. */
  lemma PauseIdempotent(r: TimerRecord, t1: int, t2: int)
    ensures AfterPause(AfterPause(r, t1), t2) == AfterPause(r, t1)
  {
  }

  /**
   * Pausing at t and resuming at the same t sets the deadline to
   * t + remainingTime * 1000, and reading the state at t gives back the
   * remaining time frozen by the pause.
   */
  lemma PauseResumeRoundTrip(r: TimerRecord, t: int)
    requires WellFormed(r) && r.isRunning && !r.isPaused
    ensures var p := AfterPause(r, t);
      && AfterResume(p, t).endTime == Some(t + p.remainingTime * 1000)
      && AfterRead(AfterResume(p, t), t) == AfterResume(p, t)
      && AfterRead(AfterResume(p, t), t).remainingTime == p.remainingTime == AfterRead(r, t).remainingTime
  {
  }

  /** After the timer has stopped (finished or stopped), pause, resume, reset, ticks and reads change nothing. */
  lemma StoppedTimerIsInert(r: TimerRecord, now: int)
    requires WellFormed(r) && !r.isRunning
    ensures AfterPause(r, now) == r && AfterResume(r, now) == r && AfterReset(r, now) == r
    ensures AfterTick(r, now) == r && AfterRead(r, now) == r
  {
  }

  /** The tick that finds no time left stops the timer and leaves its deadline in place. */
  lemma FinishingTickKeepsDeadline(r: TimerRecord, now: int)
    requires WellFormed(r) && r.isRunning && !r.isPaused && now >= EndMillis(r.endTime)
    ensures var r' := AfterTick(r, now);
      !r'.isRunning && !r'.isPaused && r'.remainingTime == 0 && r'.endTime == r.endTime && r'.endTime.Some?
  {
  }

  /** `-Math.floor(x / 1000) == Math.ceil(-x / 1000)`. */
  lemma NegatedFloorIsCeil(x: int)
    ensures -(x / 1000) == CeilSeconds(-x)
  {
    var q, m := x / 1000, x % 1000;
    assert x == 1000 * q + m;
    assert -x + 999 == 1000 * -q + (999 - m);
  }

  /** Whole seconds added to a millisecond count add as seconds under `Math.floor(. / 1000)`. */
  lemma FloorShift(x: int, n: int)
    ensures (x + n * 1000) / 1000 == x / 1000 + n
  {
    var q, m := x / 1000, x % 1000;
    assert x + n * 1000 == 1000 * (q + n) + m;
  }

  /**
   * The startup restore agrees with the deadline: whatever `remainingTime`
   * was stored, a running, unpaused timer restored at `now` has
   * SecondsLeft(endTime, now) seconds left, keeps running exactly when
   * `now` is before its deadline, and its new deadline is the old one
   * moved later by less than a second.
   */
  lemma RestoreFollowsDeadline(r: TimerRecord, now: int)
    requires r.isRunning && !r.isPaused
    ensures var r' := AfterRestore(r, now);
      && r'.remainingTime == SecondsLeft(r.endTime, now)
      && (r'.isRunning <==> now < EndMillis(r.endTime))
      && (r'.isRunning ==> EndMillis(r.endTime) <= EndMillis(r'.endTime) < EndMillis(r.endTime) + 1000)
  {
    var x := now - EndMillis(r.endTime);
    FloorShift(x, r.remainingTime);
    NegatedFloorIsCeil(x);
    assert now - (EndMillis(r.endTime) - r.remainingTime * 1000) == x + r.remainingTime * 1000;
  }

  /**
   * A running timer whose deadline was 10 seconds away when stored, restored
   * 3 seconds later, has 7 seconds left.
   */
  lemma RestoreAfterThreeSeconds(r: TimerRecord, t: int)
    requires r.isRunning && !r.isPaused && r.endTime == Some(t + 10000)
    ensures AfterRestore(r, t + 3000).remainingTime == 7
  {
    RestoreFollowsDeadline(r, t + 3000);
  }

  /**
   * start(60) at t, pause 5 seconds later, resume after any gap, and read
   * 10 seconds after the resume: 55 seconds were frozen and 45 are left.
   */
  lemma PauseResumeScenario(t: int, gap: int)
    requires gap >= 0
    ensures var p := AfterPause(AfterStart(60, t), t + 5000);
      && p.remainingTime == 55
      && AfterRead(AfterResume(p, t + 5000 + gap), t + 15000 + gap).remainingTime == 45
  {
  }

  /**
   * The record held by the service worker, with the value stored under the
   * key `timerState` and whether the `timerTick` alarm is scheduled.
   */
  class TimerService {
    var isRunning: bool
    var isPaused: bool
    var remainingTime: int
    var endTime: Option<int>
    var selectedDuration: int
    /** `chrome.storage.local`'s entry `timerState`; None when nothing is stored. */
    var saved: Option<TimerRecord>
    /** Whether the repeating alarm `timerTick` is scheduled. */
    var tickAlarm: bool

    /** The value of the record `timerState`. */
    function Snapshot(): TimerRecord
      reads this
    {
      TimerRecord(isRunning, isPaused, remainingTime, endTime, selectedDuration)
    }

    /** The record, and the copy in storage, are well formed. */
    ghost predicate Valid()
      reads this
    {
      WellFormed(Snapshot()) && (saved.Some? ==> WellFormed(saved.value))
    }

    /**
     * A service worker starting: `timerState` takes its initial value, while
     * storage and the alarm schedule survive from before.
     */
    constructor (stored: Option<TimerRecord>, alarmScheduled: bool)
      ensures Snapshot() == Initial
      ensures saved == stored && tickAlarm == alarmScheduled
      ensures Valid() <==> (stored.Some? ==> WellFormed(stored.value))
    {
      isRunning, isPaused, remainingTime, endTime, selectedDuration := false, false, 0, None, 0;
      saved, tickAlarm := stored, alarmScheduled;
    }

    /** startTimer(duration) (background.js:43-61). */
    method StartTimer(duration: int, now: int)
      requires Valid()
      modifies this
      ensures Valid()
      ensures Snapshot() == AfterStart(duration, now)
      ensures saved == Some(Snapshot()) && tickAlarm
    {
      isRunning := true;
      isPaused := false;
      selectedDuration := duration;
      remainingTime := duration;
      endTime := Some(now + duration * 1000);
      saved := Some(Snapshot());
      tickAlarm := true;
    }

    /** stopTimer() (background.js:84-97). */
    method StopTimer()
      requires Valid()
      modifies this
      ensures Valid()
      ensures Snapshot() == AfterStop(old(Snapshot()))
      ensures saved == Some(Snapshot()) && !tickAlarm
    {
      isRunning := false;
      isPaused := false;
      remainingTime := 0;
      endTime := None;
      tickAlarm := false;
      saved := Some(Snapshot());
    }

    /** pauseTimer() (background.js:120-130). */
    method PauseTimer(now: int)
      requires Valid()
      modifies this
      ensures Valid()
      ensures Snapshot() == AfterPause(old(Snapshot()), now)
      ensures old(isRunning && !isPaused) ==> saved == Some(Snapshot()) && !tickAlarm
      ensures !old(isRunning && !isPaused) ==> saved == old(saved) && tickAlarm == old(tickAlarm)
    {
      if isRunning && !isPaused {
        isPaused := true;
        remainingTime := SecondsLeft(endTime, now);
        tickAlarm := false;
        saved := Some(Snapshot());
      }
    }

    /** resumeTimer() (background.js:132-142). */
    method ResumeTimer(now: int)
      requires Valid()
      modifies this
      ensures Valid()
      ensures Snapshot() == AfterResume(old(Snapshot()), now)
      ensures old(isRunning && isPaused) ==> saved == Some(Snapshot()) && tickAlarm
      ensures !old(isRunning && isPaused) ==> saved == old(saved) && tickAlarm == old(tickAlarm)
    {
      if isRunning && isPaused {
        isPaused := false;
        endTime := Some(now + remainingTime * 1000);
        saved := Some(Snapshot());
        tickAlarm := true;
      }
    }

    /** resetTimer() (background.js:144-154); the alarm schedule is left as it is. */
    method ResetTimer(now: int)
      requires Valid()
      modifies this
      ensures Valid()
      ensures Snapshot() == AfterReset(old(Snapshot()), now)
      ensures old(isRunning) ==> saved == Some(Snapshot())
      ensures !old(isRunning) ==> saved == old(saved)
      ensures tickAlarm == old(tickAlarm)
    {
      if isRunning {
        isPaused := false;
        remainingTime := selectedDuration;
        endTime := Some(now + selectedDuration * 1000);
        saved := Some(Snapshot());
      }
    }

    /** getTimerState() (background.js:156-161): returns the record after refreshing it; storage is not written. */
    method GetTimerState(now: int) returns (state: TimerRecord)
      requires Valid()
      modifies this
      ensures Valid()
      ensures Snapshot() == AfterRead(old(Snapshot()), now) && state == Snapshot()
      ensures saved == old(saved) && tickAlarm == old(tickAlarm)
    {
      if isRunning && !isPaused {
        remainingTime := SecondsLeft(endTime, now);
      }
      state := Snapshot();
    }

    /**
     * The alarm listener (background.js:164-194): only the `timerTick` alarm
     * of a running, unpaused timer has an effect; the record is then stored,
     * and when the countdown has reached zero the alarm is cleared.
     */
    method OnAlarm(name: string, now: int)
      requires Valid()
      modifies this
      ensures Valid()
      ensures name == TickAlarm && old(isRunning && !isPaused) ==>
        && Snapshot() == AfterTick(old(Snapshot()), now)
        && saved == Some(Snapshot())
        && tickAlarm == (old(tickAlarm) && isRunning)
      ensures !(name == TickAlarm && old(isRunning && !isPaused)) ==>
        Snapshot() == old(Snapshot()) && saved == old(saved) && tickAlarm == old(tickAlarm)
    {
      if name == TickAlarm {
        if isRunning && !isPaused {
          var remaining := SecondsLeft(endTime, now);
          remainingTime := remaining;
          if remaining <= 0 {
            isRunning := false;
            isPaused := false;
            tickAlarm := false;
          }
          saved := Some(Snapshot());
        }
      }
    }

    /**
     * The startup listener (background.js:220-242): a stored record replaces
     * `timerState` and is corrected for the time that passed. The alarm is
     * scheduled only when the stored record was running and unpaused and
     * still has time left; otherwise the schedule is unchanged. Storage is
     * not written.
     */
    method OnStartup(now: int)
      requires Valid()
      modifies this
      ensures Valid()
      ensures saved == old(saved)
      ensures old(saved).None? ==> Snapshot() == old(Snapshot()) && tickAlarm == old(tickAlarm)
      ensures old(saved).Some? ==>
        && Snapshot() == AfterRestore(old(saved).value, now)
        && tickAlarm == (old(tickAlarm) || (old(saved).value.isRunning && !old(saved).value.isPaused && isRunning))
    {
      if saved.Some? {
        var stored := saved.value;
        isRunning, isPaused, remainingTime, endTime, selectedDuration :=
          stored.isRunning, stored.isPaused, stored.remainingTime, stored.endTime, stored.selectedDuration;
        if isRunning && !isPaused {
          var elapsed := now - (EndMillis(endTime) - remainingTime * 1000);
          remainingTime := Clock.Max(0, remainingTime - elapsed / 1000);
          endTime := Some(now + remainingTime * 1000);
          if remainingTime > 0 {
            tickAlarm := true;
          } else {
            isRunning := false;
          }
        }
      }
    }
  }

  /**
   * Resetting a paused timer unpauses it but does not schedule the
   * `timerTick` alarm that pausing cleared: start(60) at 0, pause at 5000
   * and reset at 6000 leave a running, unpaused timer with no tick alarm
   * scheduled. The alarm is not re-created by the reset.
   */
  method ResetWhilePausedLeavesNoTick() returns (svc: TimerService)
    ensures svc.isRunning && !svc.isPaused && !svc.tickAlarm
    ensures svc.remainingTime == 60 && svc.endTime == Some(66000)
  {
    svc := new TimerService(None, false);
    svc.StartTimer(60, 0);
    svc.PauseTimer(5000);
    svc.ResetTimer(6000);
  }
}

=== FILE: clock.dfy ===
/**
 * Turning a number of seconds into the clock text the timer surfaces show:
 * `m:ss` in the popup and the overlay, `mm:ss` in the standalone window.
 *
 * The functions follow JavaScript's arithmetic on integral numbers:
 * `Math.floor(s / 60)` is Dafny's `/` (floor division for a positive
 * divisor), `s % 60` truncates toward zero (JsRem60), `String(i)` writes a
 * minus sign before the decimal digits of a negative number (JsString),
 * and `padStart(2, '0')` prefixes zeros up to length two (PadStart2).
 *
 * ParseClock reads a clock text back, so that the round trip
 * minutes * 60 + seconds == s can be stated.
 */
module Clock {
  import opened Wrappers

  predicate IsDigit(c: char) {
    '0' <= c <= '9'
  }

  predicate AllDigits(s: string) {
    forall i :: 0 <= i < |s| ==> IsDigit(s[i])
  }

  function DigitChar(d: nat): (c: char)
    requires d < 10
    ensures IsDigit(c)
  {
    ('0' as int + d) as char
  }

  function DigitValue(c: char): (d: nat)
    requires IsDigit(c)
    ensures d < 10 && DigitChar(d) == c
  {
    c as int - '0' as int
  }

  /** The decimal digits of n, most significant first, without leading zeros. */
  function Digits(n: nat): (s: string)
    ensures 1 <= |s| && AllDigits(s)
    ensures |s| == 1 <==> n < 10
    ensures s[0] == '0' ==> n == 0
    decreases n
  {
    if n < 10 then [DigitChar(n)] else Digits(n / 10) + [DigitChar(n % 10)]
  }

  /** The number a string of decimal digits denotes (leading zeros allowed). */
  function DigitsValue(s: string): nat
    requires AllDigits(s)
    decreases |s|
  {
    if s == [] then 0 else DigitsValue(s[..|s| - 1]) * 10 + DigitValue(s[|s| - 1])
  }

  /** JavaScript's `String(i)` for an integral number i. */
  function JsString(i: int): (s: string)
    ensures i >= 0 ==> s == Digits(i)
    ensures i < 0 ==> s == "-" + Digits(-i)
  {
    if i < 0 then "-" + Digits(-i) else Digits(i)
  }

  /**
   * JavaScript's `a % 60` for an integral a: the remainder of division
   * truncated toward zero, which takes the sign of a.
   */
  function JsRem60(a: int): (r: int)
    ensures (a - r) % 60 == 0
    ensures a >= 0 ==> 0 <= r < 60
    ensures a < 0 ==> -60 < r <= 0
  {
    if a >= 0 then a % 60 else -((-a) % 60)
  }

  /** JavaScript's `Math.max(a, b)` for integral a and b. */
  function Max(a: int, b: int): (m: int)
    ensures m >= a && m >= b && (m == a || m == b)
  {
    if a >= b then a else b
  }

  /** JavaScript's `s.padStart(2, '0')`. */
  function PadStart2(s: string): (r: string)
    ensures |s| >= 2 ==> r == s
    ensures |s| < 2 ==> |r| == 2 && r[2 - |s|..] == s && forall i :: 0 <= i < 2 - |s| ==> r[i] == '0'
  {
    if |s| >= 2 then s else if |s| == 1 then "0" + s else "00"
  }

  /** Splits t at its first ':'; None when t holds no ':'. */
  function SplitColon(t: string): (r: Option<(string, string)>)
    ensures r.Some? ==> ':' !in r.value.0 && t == r.value.0 + ":" + r.value.1
    ensures r.None? ==> ':' !in t
  {
    if t == [] then None
    else if t[0] == ':' then Some(([], t[1..]))
    else match SplitColon(t[1..])
      case None => None
      case Some(p) => Some(([t[0]] + p.0, p.1))
  }

  /** Reads "<digits>:<digits>" back as (minutes, seconds); None for any other text. */
  function ParseClock(t: string): Option<(nat, nat)> {
    match SplitColon(t)
    case None => None
    case Some(p) =>
      if |p.0| > 0 && |p.1| > 0 && AllDigits(p.0) && AllDigits(p.1)
      then Some((DigitsValue(p.0), DigitsValue(p.1)))
      else None
  }

  lemma {:induction false} DigitsValueOfDigits(n: nat)
    ensures DigitsValue(Digits(n)) == n
    decreases n
  {
    if n >= 10 {
      DigitsValueOfDigits(n / 10);
      var s := Digits(n / 10) + [DigitChar(n % 10)];
      assert s[..|s| - 1] == Digits(n / 10);
    }
  }

  lemma {:induction false} DigitsValueLeadingZero(s: string)
    requires AllDigits(s)
    ensures AllDigits("0" + s) && DigitsValue("0" + s) == DigitsValue(s)
    decreases |s|
  {
    var z := "0" + s;
    if s != [] {
      assert z[..|z| - 1] == "0" + s[..|s| - 1];
      DigitsValueLeadingZero(s[..|s| - 1]);
    }
  }

  lemma {:induction false} SplitColonAt(a: string, b: string)
    requires ':' !in a
    ensures SplitColon(a + ":" + b) == Some((a, b))
    decreases |a|
  {
    if a != [] {
      assert a[0] in a;
      assert (a + ":" + b)[0] == a[0];
      assert (a + ":" + b)[1..] == a[1..] + ":" + b;
      SplitColonAt(a[1..], b);
      assert [a[0]] + a[1..] == a;
    }
  }

  /** A number below 100, padded to two places, is its tens digit and its units digit. */
  lemma TwoDigits(r: int)
    requires 0 <= r < 100
    ensures PadStart2(JsString(r)) == [DigitChar(r / 10), DigitChar(r % 10)]
    ensures DigitsValue(PadStart2(JsString(r))) == r
  {
    DigitsValueOfDigits(r);
    if r < 10 {
      DigitsValueLeadingZero(Digits(r));
    }
  }

  /** The padded seconds of s >= 0 are two digits, the first below 6. */
  lemma SecondsDigits(s: int)
    requires s >= 0
    ensures PadStart2(JsString(s % 60)) == [DigitChar(s % 60 / 10), DigitChar(s % 10)]
    ensures s % 60 / 10 < 6
  {
    TwoDigits(s % 60);
    SecondsUnits(s);
  }

  lemma SecondsUnits(s: int)
    requires s >= 0
    ensures s % 60 % 10 == s % 10
  {
    var q, r := s / 60, s % 60;
    assert s == 60 * q + r;
    assert s == 10 * (6 * q + r / 10) + r % 10;
  }

  lemma MinutesTens(s: int)
    requires s >= 0
    ensures s / 60 / 10 == s / 600
  {
    var q := s / 600;
    var r := s % 600;
    assert s == 600 * q + r;
    assert s / 60 == 10 * q + r / 60;
  }

  /**
   * A text made of the digits m of the minutes, ':' and the padded seconds
   * of s reads back as (s / 60, s % 60).
   */
  lemma MinutesSecondsReadBack(m: string, s: int)
    requires s >= 0 && m != [] && AllDigits(m) && DigitsValue(m) == s / 60
    ensures ParseClock(m + ":" + PadStart2(JsString(JsRem60(s)))) == Some((s / 60, s % 60))
  {
    var sec := PadStart2(JsString(JsRem60(s)));
    assert JsRem60(s) == s % 60;
    TwoDigits(s % 60);
    NoColonInDigits(m);
    SplitColonAt(m, sec);
  }

  lemma NoColonInDigits(m: string)
    requires AllDigits(m)
    ensures ':' !in m
  {
    forall i | 0 <= i < |m|
      ensures m[i] != ':'
    {
      assert IsDigit(m[i]);
    }
  }

  /**
   * `${Math.floor(s / 60)}:${(s % 60).toString().padStart(2, '0')}` -- the m:ss text.
   * For s >= 0 it is the unpadded minutes, ':' and exactly two digits of
   * seconds, the first of them below 6.
   */
  function ShortClock(s: int): (t: string)
    ensures s >= 0 ==> t == Digits(s / 60) + [':', DigitChar(s % 60 / 10), DigitChar(s % 10)] && s % 60 / 10 < 6
  {
    var t := JsString(s / 60) + ":" + PadStart2(JsString(JsRem60(s)));
    if s >= 0 then
      SecondsDigits(s);
      t
    else
      t
  }

  /**
   * `${String(Math.floor(s / 60)).padStart(2, '0')}:${String(s % 60).padStart(2, '0')}` -- the mm:ss text.
   * For 0 <= s < 6000 (under 100 minutes) it is exactly five characters:
   * two digits of minutes, ':' and two digits of seconds.
   */
  function PaddedClock(s: int): (t: string)
    ensures 0 <= s < 6000 ==> t == [DigitChar(s / 600), DigitChar(s / 60 % 10), ':', DigitChar(s % 60 / 10), DigitChar(s % 10)]
  {
    var t := PadStart2(JsString(s / 60)) + ":" + PadStart2(JsString(JsRem60(s)));
    if 0 <= s < 6000 then
      SecondsDigits(s);
      TwoDigits(s / 60);
      MinutesTens(s);
      t
    else
      t
  }

  /** Reading a m:ss text back gives minutes and seconds with minutes * 60 + seconds == s. */
  lemma ShortClockRoundTrip(s: int)
    requires s >= 0
    ensures ParseClock(ShortClock(s)) == Some((s / 60, s % 60))
    ensures s / 60 * 60 + s % 60 == s
  {
    DigitsValueOfDigits(s / 60);
    MinutesSecondsReadBack(Digits(s / 60), s);
  }

  /** Reading a mm:ss text back gives minutes and seconds with minutes * 60 + seconds == s. */
  lemma PaddedClockRoundTrip(s: int)
    requires s >= 0
    ensures ParseClock(PaddedClock(s)) == Some((s / 60, s % 60))
  {
    var d := Digits(s / 60);
    DigitsValueOfDigits(s / 60);
    if |d| < 2 {
      DigitsValueLeadingZero(d);
      MinutesSecondsReadBack("0" + d, s);
    } else {
      MinutesSecondsReadBack(d, s);
    }
  }
}

=== FILE: overlay.dfy ===
/**
 * The timer overlay shown in each tab's iframe (src/timer/timer.js).
 *
 * updateDisplay turns the state the background answers with into the clock
 * text, the status text and the pause icon, and keeps the module-level
 * `totalTime`: the remaining time of the first running state seen, kept
 * until the timer is seen finished or reset. The pause button asks the
 * background for the state and sends `resumeTimer` or `pauseTimer`.
 */
module Overlay {
  import opened Wrappers
  import Clock
  import Background

  /** The texts updateDisplay writes; `icon` is None when the pause icon is left as it was. */
  datatype Render = Render(time: string, status: string, icon: Option<string>)

  const PlayIcon := "\U{25B6}"
  const PauseIcon := "\U{23F8}"

  /** The finished-or-reset branch of updateDisplay (timer.js:90). */
  predicate ShowsZero(s: Background.TimerRecord) {
    !s.isRunning || s.remainingTime <= 0
  }

  /** The texts updateDisplay writes for a state (timer.js:90-123). */
  function Rendered(s: Background.TimerRecord): (r: Render)
    ensures ShowsZero(s) ==> r.time == "0:00" && r.icon.None?
    ensures r.status == "Timer Finished!" <==> s.remainingTime == 0 && !s.isRunning
    ensures ShowsZero(s) && r.status != "Timer Finished!" ==> r.status == "Ready"
    ensures !ShowsZero(s) ==>
      && r.time == Clock.ShortClock(s.remainingTime)
      && (s.isPaused ==> r.status == "Paused" && r.icon == Some(PlayIcon))
      && (!s.isPaused ==> r.status == "Running" && r.icon == Some(PauseIcon))
  {
    if !s.isRunning || s.remainingTime <= 0 then
      Render("0:00", if s.remainingTime == 0 && !s.isRunning then "Timer Finished!" else "Ready", None)
    else if s.isPaused then
      Render(Clock.ShortClock(s.remainingTime), "Paused", Some(PlayIcon))
    else
      Render(Clock.ShortClock(s.remainingTime), "Running", Some(PauseIcon))
  }

  /**
   * `totalTime` after updateDisplay (timer.js:85-87, 103): captured from a
   * running state while null, cleared whenever the zero branch is taken.
   */
  function TotalAfter(prev: Option<int>, s: Background.TimerRecord): (t: Option<int>)
    ensures ShowsZero(s) ==> t.None?
    ensures !ShowsZero(s) && prev.Some? ==> t == prev
    ensures !ShowsZero(s) && prev.None? ==> t == Some(s.remainingTime)
  {
    var captured := if s.isRunning && prev.None? then Some(s.remainingTime) else prev;
    if ShowsZero(s) then None else captured
  }

  /** `totalTime` after updateDisplay has seen each state of `states` in turn. */
  function TotalAfterAll(prev: Option<int>, states: seq<Background.TimerRecord>): Option<int>
    decreases |states|
  {
    if states == [] then prev else TotalAfterAll(TotalAfter(prev, states[0]), states[1..])
  }

  /**
   * Over a run of states that all show a countdown, `totalTime` is the
   * remaining time of the first of them: later states never replace it.
   */
  lemma {:induction false} TotalCapturedOnce(prev: Option<int>, states: seq<Background.TimerRecord>)
    requires forall i :: 0 <= i < |states| ==> !ShowsZero(states[i])
    requires states != [] || prev.Some?
    ensures TotalAfterAll(prev, states) == if prev.Some? then prev else Some(states[0].remainingTime)
    decreases |states|
  {
    if states != [] {
      TotalCapturedOnce(TotalAfter(prev, states[0]), states[1..]);
    }
  }

  /** The action the pause button sends after asking for the state (timer.js:21-28); None when there is no state. */
  function PauseButtonAction(response: Option<Background.TimerRecord>): (a: Option<string>)
    ensures response.None? <==> a.None?
    ensures response.Some? ==> (a == Some("resumeTimer") <==> response.value.isPaused)
    ensures response.Some? ==> (a == Some("pauseTimer") <==> !response.value.isPaused)
  {
    match response
    case None => None
    case Some(s) => if s.isPaused then Some("resumeTimer") else Some("pauseTimer")
  }

  /**
   * For a running timer the action the pause button picks flips its paused
   * flag when the background carries it out.
   */
  lemma PauseButtonToggles(s: Background.TimerRecord, now: int)
    requires Background.WellFormed(s) && s.isRunning
    ensures PauseButtonAction(Some(s)) == Some("resumeTimer") ==> !Background.AfterResume(s, now).isPaused
    ensures PauseButtonAction(Some(s)) == Some("pauseTimer") ==> Background.AfterPause(s, now).isPaused
  {
  }

  /**
   * A running, unpaused timer read at or after its deadline but before the
   * tick that stops it shows "0:00" with the status "Ready", not
   * "Timer Finished!", since it is still running.
   */
  lemma ExpiredBeforeTickShowsReady(r: Background.TimerRecord, now: int)
    requires Background.WellFormed(r) && r.isRunning && !r.isPaused
    requires now >= Background.EndMillis(r.endTime)
    ensures Rendered(Background.AfterRead(r, now)) == Render("0:00", "Ready", None)
  {
  }

  /** After the tick that stops the timer, the overlay shows "Timer Finished!". */
  lemma FinishedTickShowsFinished(r: Background.TimerRecord, now: int)
    requires Background.WellFormed(r) && r.isRunning && !r.isPaused
    requires now >= Background.EndMillis(r.endTime)
    ensures Rendered(Background.AfterTick(r, now)) == Render("0:00", "Timer Finished!", None)
  {
  }

  /** The overlay frame's module-level `totalTime`. */
  class OverlayFrame {
    var totalTime: Option<int>

    constructor ()
      ensures totalTime.None?
    {
      totalTime := None;
    }

    /**
     * updateDisplay(state) (timer.js:75-133): a missing state changes
     * nothing; otherwise returns the texts written and updates `totalTime`.
     */
    method UpdateDisplay(state: Option<Background.TimerRecord>) returns (r: Option<Render>)
      modifies this
      ensures state.None? ==> r.None? && totalTime == old(totalTime)
      ensures state.Some? ==> r == Some(Rendered(state.value)) && totalTime == TotalAfter(old(totalTime), state.value)
    {
      if state.None? {
        return None;
      }
      var s := state.value;
      if s.isRunning && totalTime.None? {
        totalTime := Some(s.remainingTime);
      }
      if !s.isRunning || s.remainingTime <= 0 {
        var status := if s.remainingTime == 0 && !s.isRunning then "Timer Finished!" else "Ready";
        totalTime := None;
        return Some(Render("0:00", status, None));
      }
      var time := Clock.ShortClock(s.remainingTime);
      if s.isPaused {
        r := Some(Render(time, "Paused", Some(PlayIcon)));
      } else {
        r := Some(Render(time, "Running", Some(PauseIcon)));
      }
    }
  }
}

=== FILE: popup.dfy ===
/**
 * The toolbar popup (src/popup/popup.js): it polls the background for the
 * state and shows the countdown block with an m:ss clock and a label, or
 * hides it.
 */
module Popup {
  import opened Wrappers
  import Clock
  import Background
  import Overlay

  /** What checkTimerState leaves on screen. */
  datatype Display = Hidden | Shown(clock: string, caption: string)

  /** The countdown block is shown for a running timer with time left (popup.js:68). */
  predicate StatusVisible(s: Background.TimerRecord) {
    s.isRunning && s.remainingTime > 0
  }

  /** The label under the clock (popup.js:94-98). */
  function StatusLabel(isPaused: bool): (l: string)
    ensures l == "Timer Paused" <==> isPaused
    ensures l == "Timer Active" <==> !isPaused
  {
    if isPaused then "Timer Paused" else "Timer Active"
  }

  /**
   * checkTimerState's effect for the background's answer (popup.js:65-73,
   * 85-99): None (nothing written) without an answer.
   */
  function CheckedDisplay(response: Option<Background.TimerRecord>): (d: Option<Display>)
    ensures response.None? <==> d.None?
    ensures response.Some? ==> (d.value.Shown? <==> StatusVisible(response.value))
    ensures response.Some? && d.value.Shown? ==>
      d.value == Shown(Clock.ShortClock(response.value.remainingTime), StatusLabel(response.value.isPaused))
  {
    match response
    case None => None
    case Some(s) =>
      if s.isRunning && s.remainingTime > 0 then
        Some(Shown(Clock.ShortClock(s.remainingTime), StatusLabel(s.isPaused)))
      else
        Some(Hidden)
  }

  /**
   * The popup and the overlay agree on the same state: the popup shows its
   * block exactly when the overlay shows a countdown, with the same clock
   * text, and says "Timer Paused" exactly when the overlay says "Paused".
   */
  lemma PopupAgreesWithOverlay(s: Background.TimerRecord)
    ensures CheckedDisplay(Some(s)).value.Shown? <==> !Overlay.ShowsZero(s)
    ensures CheckedDisplay(Some(s)).value.Shown? ==>
      && CheckedDisplay(Some(s)).value.clock == Overlay.Rendered(s).time
      && (CheckedDisplay(Some(s)).value.caption == "Timer Paused" <==> Overlay.Rendered(s).status == "Paused")
  {
  }

  /**
   * The popup's clock text for a shown state reads back as minutes and
   * seconds with minutes * 60 + seconds == remainingTime, and ends in two
   * seconds digits.
   */
  lemma ShownClockReadsBack(s: Background.TimerRecord)
    requires StatusVisible(s)
    ensures var m := s.remainingTime / 60;
      var sec := s.remainingTime % 60;
      && Clock.ParseClock(CheckedDisplay(Some(s)).value.clock) == Some((m, sec))
      && m * 60 + sec == s.remainingTime
      && CheckedDisplay(Some(s)).value.clock ==
         Clock.Digits(m) + [':', Clock.DigitChar(sec / 10), Clock.DigitChar(s.remainingTime % 10)]
  {
    Clock.ShortClockRoundTrip(s.remainingTime);
  }

  /**
   * Once a running timer's deadline has passed, the popup hides its block,
   * even before the tick that stops the timer.
   */
  lemma HiddenAfterDeadline(r: Background.TimerRecord, now: int)
    requires r.isRunning && !r.isPaused && now >= Background.EndMillis(r.endTime)
    ensures CheckedDisplay(Some(Background.AfterRead(r, now))) == Some(Hidden)
  {
  }
}

=== FILE: standalone.dfy ===
/**
 * The standalone timer window (src/timer/timer-standalone.js).
 *
 * This variant keeps its timer in `chrome.storage.local` under separate
 * keys: `timerActive`, `timerMinutes`, `timerStartTime`, `timerTotalSeconds`,
 * `timerPaused`, `timerPausedTime` and `timerPausedSeconds`. Remaining
 * seconds are computed from the start timestamp, or read from
 * `timerPausedSeconds` while paused. The window also holds the handle of
 * its one-second refresh interval.
 *
 * A stored number may be missing (`undefined`), `null`, or a number: Slot.
 * `timerActive` and `timerPaused` are used only for their truth value, so
 * a missing one is `false`.
 */
module Standalone {
  import opened Wrappers
  import Clock

  /** A storage value: absent, `null`, or a number. */
  datatype Slot = Undefined | Null | Num(n: int)

  /** JavaScript truthiness of a stored number: 0, null and undefined are false. */
  predicate Truthy(v: Slot) {
    v.Num? && v.n != 0
  }

  /** `a || b` on stored numbers. */
  function Or(a: Slot, b: Slot): (r: Slot)
    ensures Truthy(a) ==> r == a
    ensures !Truthy(a) ==> r == b
  {
    if Truthy(a) then a else b
  }

  /** The timer's storage keys. */
  datatype Keys = Keys(
    timerActive: bool,
    timerMinutes: Slot,
    timerStartTime: Slot,
    timerTotalSeconds: Slot,
    timerPaused: bool,
    timerPausedTime: Slot,
    timerPausedSeconds: Slot)

  /** What nothing stored reads as. */
  const Empty := Keys(false, Undefined, Undefined, Undefined, false, Undefined, Undefined)

  /**
   * What the window's own writes keep true: an active timer has a start
   * time and a total, and a paused one has its paused seconds.
   */
  predicate Consistent(k: Keys) {
    && (k.timerActive ==> k.timerStartTime.Num? && k.timerTotalSeconds.Num?)
    && (k.timerPaused ==> k.timerPausedSeconds.Num?)
  }

  /**
   * `Math.max(0, total - Math.floor((now - (start || now)) / 1000))`:
   * the remaining seconds of a running timer (timer-standalone.js:56-57, 121-122, 146-147).
   */
  function RunningSeconds(total: int, start: Slot, now: int): (s: int)
    ensures s >= 0
    ensures Truthy(start) && start.n <= now ==> s <= Clock.Max(0, total)
    ensures Truthy(start) && s > 0 ==> (total - s) * 1000 <= now - start.n < (total - s + 1) * 1000
    ensures Truthy(start) ==> (s == 0 <==> total * 1000 <= now - start.n)
    ensures !Truthy(start) ==> s == Clock.Max(0, total)
  {
    var started := Or(start, Num(now)).n;
    Clock.Max(0, total - (now - started) / 1000)
  }

  /**
   * The remaining seconds updateTimerStatus computes (timer-standalone.js:48-58):
   * None when the timer is not active or has no total; the paused seconds
   * when paused; the running remainder otherwise.
   */
  function StatusSeconds(k: Keys, now: int): (r: Option<int>)
    requires Consistent(k)
    ensures r.None? <==> !(k.timerActive && Truthy(k.timerTotalSeconds))
    ensures r.Some? && k.timerPaused ==> r.value == k.timerPausedSeconds.n
    ensures r.Some? && !k.timerPaused ==> r.value == RunningSeconds(k.timerTotalSeconds.n, k.timerStartTime, now)
  {
    if k.timerActive && Truthy(k.timerTotalSeconds) then
      if k.timerPaused && k.timerPausedSeconds != Undefined then
        Some(k.timerPausedSeconds.n)
      else
        Some(RunningSeconds(k.timerTotalSeconds.n, k.timerStartTime, now))
    else
      None
  }

  /** What the window shows: the duration buttons, or the countdown with the pause button's label. */
  datatype View = Options | Status(clock: string, pauseLabel: string)

  /** What one firing of the refresh interval does to the window. */
  datatype Refresh = Unchanged | ShowClock(clock: string) | ShowOptions

  /** The pause button's label for a timer that is paused or not (timer-standalone.js:83-89). */
  function PauseLabel(paused: bool): (l: string)
    ensures l == "Resume" <==> paused
    ensures l == "Pause" <==> !paused
  {
    if paused then "Resume" else "Pause"
  }

  /** updateTimerStatus's view (timer-standalone.js:60-70). */
  function StatusView(k: Keys, now: int): (v: View)
    requires Consistent(k)
    ensures v.Status? <==> StatusSeconds(k, now).Some? && StatusSeconds(k, now).value > 0
    ensures v.Status? ==> v == Status(Clock.PaddedClock(StatusSeconds(k, now).value), PauseLabel(k.timerPaused))
  {
    match StatusSeconds(k, now)
    case Some(s) => if s > 0 then Status(Clock.PaddedClock(s), PauseLabel(k.timerPaused)) else Options
    case None => Options
  }

  /** updateTimerStatus's write: a countdown found at zero or below is marked inactive (timer-standalone.js:63-67). */
  function AfterStatus(k: Keys, now: int): (k': Keys)
    requires Consistent(k)
    ensures Consistent(k')
    ensures k' == k.(timerActive := k'.timerActive)
    ensures k'.timerActive <==> k.timerActive && !(StatusSeconds(k, now).Some? && StatusSeconds(k, now).value <= 0)
  {
    match StatusSeconds(k, now)
    case Some(s) => if s > 0 then k else k.(timerActive := false)
    case None => k
  }

  /** startTimer(minutes)'s write (timer-standalone.js:186-194). */
  function AfterStart(k: Keys, minutes: int, now: int): (k': Keys)
    ensures Consistent(k')
    ensures k'.timerActive && !k'.timerPaused
    ensures k'.timerStartTime == Num(now) && k'.timerTotalSeconds == Num(minutes * 60)
    ensures k'.timerPausedTime == Null && k'.timerPausedSeconds == Null
  {
    Keys(true, Num(minutes), Num(now), Num(minutes * 60), false, Null, Null)
  }

  /** stopTimer()'s write: only `timerActive` and `timerPaused` (timer-standalone.js:206-209). */
  function AfterStop(k: Keys): (k': Keys)
    ensures Consistent(k) ==> Consistent(k')
    ensures !k'.timerActive && !k'.timerPaused
    ensures k' == k.(timerActive := false, timerPaused := false)
  {
    k.(timerActive := false, timerPaused := false)
  }

  /**
   * togglePause's write (timer-standalone.js:140-171): nothing for an
   * inactive timer; pausing stores the running remainder; resuming restarts
   * the clock from the paused seconds, or from the old total when those are
   * 0 or absent.
   */
  function AfterToggle(k: Keys, now: int): (k': Keys)
    requires Consistent(k)
    ensures Consistent(k')
    ensures !k.timerActive ==> k' == k
    ensures k.timerActive && !k.timerPaused ==>
      k' == k.(timerPaused := true, timerPausedTime := Num(now),
               timerPausedSeconds := Num(RunningSeconds(k.timerTotalSeconds.n, k.timerStartTime, now)))
    ensures k.timerActive && k.timerPaused ==>
      && !k'.timerPaused && k'.timerStartTime == Num(now)
      && k'.timerTotalSeconds == Or(k.timerPausedSeconds, k.timerTotalSeconds)
      && k'.timerPausedTime == Null && k'.timerPausedSeconds == Null
      && k'.timerActive && k'.timerMinutes == k.timerMinutes
  {
    if !k.timerActive then k
    else if !k.timerPaused then
      var pausedSeconds := RunningSeconds(k.timerTotalSeconds.n, k.timerStartTime, now);
      k.(timerPaused := true, timerPausedTime := Num(now), timerPausedSeconds := Num(pausedSeconds))
    else
      var pausedSeconds := Or(k.timerPausedSeconds, k.timerTotalSeconds);
      k.(timerPaused := false, timerStartTime := Num(now), timerTotalSeconds := pausedSeconds,
         timerPausedTime := Null, timerPausedSeconds := Null)
  }

  /** While paused, the remaining seconds are the stored paused seconds, whatever the clock says. */
  lemma PausedSecondsIgnoreClock(k: Keys, t1: int, t2: int)
    requires Consistent(k) && k.timerActive && Truthy(k.timerTotalSeconds) && k.timerPaused
    ensures StatusSeconds(k, t1) == StatusSeconds(k, t2) == Some(k.timerPausedSeconds.n)
  {
  }

  /** A running countdown never goes up as the clock advances. */
  lemma RunningSecondsNonIncreasing(total: int, start: Slot, t1: int, t2: int)
    requires t1 <= t2
    ensures RunningSeconds(total, start, t2) <= RunningSeconds(total, start, t1)
  {
    if Truthy(start) {
      FloorMonotonic(t1 - start.n, t2 - start.n);
    }
  }

  lemma FloorMonotonic(a: int, b: int)
    requires a <= b
    ensures a / 1000 <= b / 1000
  {
    var qa, qb := a / 1000, b / 1000;
    assert a == 1000 * qa + a % 1000;
    assert b == 1000 * qb + b % 1000;
  }

  /**
   * Pausing and resuming at the same instant leaves a positive remainder as
   * it was: the window shows the same seconds before and after.
   */
  lemma PauseResumeKeepsSeconds(k: Keys, t: int)
    requires Consistent(k) && k.timerActive && !k.timerPaused && Truthy(k.timerTotalSeconds)
    requires RunningSeconds(k.timerTotalSeconds.n, k.timerStartTime, t) > 0
    ensures var k' := AfterToggle(AfterToggle(k, t), t);
      && k'.timerActive && !k'.timerPaused
      && StatusSeconds(k', t) == StatusSeconds(k, t) == Some(RunningSeconds(k.timerTotalSeconds.n, k.timerStartTime, t))
  {
    var R := RunningSeconds(k.timerTotalSeconds.n, k.timerStartTime, t);
    var paused := AfterToggle(k, t);
    assert paused.timerPausedSeconds == Num(R);
    var resumed := AfterToggle(paused, t);
    assert resumed.timerTotalSeconds == Num(R) && resumed.timerStartTime == Num(t);
    assert RunningSeconds(R, Num(t), t) == R;
  }

  /**
   * A countdown paused when it has just reached 0 and resumed at once starts
   * over from its whole old total: `timerPausedSeconds || timerTotalSeconds`
   * treats the stored 0 as absent.
   */
  lemma PauseAtZeroThenResumeStartsOver(k: Keys, minutes: int, t0: int)
    requires minutes > 0 && t0 > 0
    ensures var started := AfterStart(k, minutes, t0);
      var t := t0 + minutes * 60000;
      var paused := AfterToggle(started, t);
      && paused.timerPausedSeconds == Num(0)
      && StatusSeconds(AfterToggle(paused, t), t) == Some(minutes * 60)
  {
    MinutesInMillis(minutes);
  }

  /**
   * A timer started with a positive number of minutes at a positive clock
   * reading shows all its seconds at once, labels the button "Pause", and
   * has no seconds left once the minutes have passed.
   */
  lemma StartShowsFullTime(k: Keys, minutes: int, t0: int)
    requires minutes > 0 && t0 > 0
    ensures StatusView(AfterStart(k, minutes, t0), t0) == Status(Clock.PaddedClock(minutes * 60), "Pause")
    ensures StatusSeconds(AfterStart(k, minutes, t0), t0 + minutes * 60000) == Some(0)
  {
    var started := AfterStart(k, minutes, t0);
    assert RunningSeconds(minutes * 60, Num(t0), t0) == minutes * 60;
    assert StatusSeconds(started, t0) == Some(minutes * 60);
    MinutesInMillis(minutes);
    assert RunningSeconds(minutes * 60, Num(t0), t0 + minutes * 60000) == 0;
  }

  lemma MinutesInMillis(minutes: int)
    ensures minutes * 60000 / 1000 == minutes * 60
  {
    assert minutes * 60000 == 1000 * (minutes * 60);
  }

  /**
   * A timer started with zero minutes or fewer shows the buttons at once;
   * a negative count is marked inactive, while zero minutes (a total of 0,
   * which is falsy) stays marked active.
   */
  lemma StartWithoutMinutesShowsOptions(k: Keys, minutes: int, t0: int)
    requires minutes <= 0
    ensures StatusView(AfterStart(k, minutes, t0), t0) == Options
    ensures AfterStatus(AfterStart(k, minutes, t0), t0).timerActive == (minutes == 0)
  {
  }

  /** The storage keys and the refresh interval of one open window. */
  class StandaloneWindow {
    var timerActive: bool
    var timerMinutes: Slot
    var timerStartTime: Slot
    var timerTotalSeconds: Slot
    var timerPaused: bool
    var timerPausedTime: Slot
    var timerPausedSeconds: Slot
    /** Whether `updateInterval` holds a live one-second interval. */
    var ticking: bool

    function Stored(): Keys
      reads this
    {
      Keys(timerActive, timerMinutes, timerStartTime, timerTotalSeconds, timerPaused, timerPausedTime, timerPausedSeconds)
    }

    ghost predicate Valid()
      reads this
    {
      Consistent(Stored())
    }

    /** A window opening over what storage holds; no interval runs yet. */
    constructor (stored: Keys)
      ensures Stored() == stored && !ticking
      ensures Valid() <==> Consistent(stored)
    {
      timerActive, timerMinutes, timerStartTime, timerTotalSeconds := stored.timerActive, stored.timerMinutes, stored.timerStartTime, stored.timerTotalSeconds;
      timerPaused, timerPausedTime, timerPausedSeconds := stored.timerPaused, stored.timerPausedTime, stored.timerPausedSeconds;
      ticking := false;
    }

    /**
     * updateTimerStatus() (timer-standalone.js:37-75): shows the countdown
     * and restarts the interval (live only when not paused), or shows the
     * buttons, stops the interval and marks a finished timer inactive.
     */
    method UpdateTimerStatus(now: int) returns (view: View)
      requires Valid()
      modifies this
      ensures Valid()
      ensures view == StatusView(old(Stored()), now)
      ensures Stored() == AfterStatus(old(Stored()), now)
      ensures ticking == (view.Status? && !old(timerPaused))
    {
      var remaining: Option<int> := None;
      if timerActive && Truthy(timerTotalSeconds) {
        if timerPaused && timerPausedSeconds != Undefined {
          remaining := Some(timerPausedSeconds.n);
        } else {
          remaining := Some(RunningSeconds(timerTotalSeconds.n, timerStartTime, now));
        }
      }
      if remaining.Some? && remaining.value > 0 {
        view := Status(Clock.PaddedClock(remaining.value), PauseLabel(timerPaused));
        ticking := !timerPaused;
      } else {
        view := Options;
        ticking := false;
        if remaining.Some? {
          timerActive := false;
        }
      }
    }

    /**
     * One firing of the interval (timer-standalone.js:117-131): an active,
     * unpaused countdown shows its new clock text, or, at zero, the buttons,
     * and is then marked inactive and the interval stops.
     */
    method IntervalFired(now: int) returns (change: Refresh)
      requires Valid()
      modifies this
      ensures Valid()
      ensures !(old(timerActive) && !old(timerPaused)) ==>
        change == Unchanged && Stored() == old(Stored()) && ticking == old(ticking)
      ensures old(timerActive) && !old(timerPaused) ==>
        var s := RunningSeconds(old(timerTotalSeconds).n, old(timerStartTime), now);
        && (s > 0 ==> change == ShowClock(Clock.PaddedClock(s)) && Stored() == old(Stored()) && ticking == old(ticking))
        && (s <= 0 ==> change == ShowOptions && Stored() == old(Stored()).(timerActive := false) && !ticking)
    {
      change := Unchanged;
      if timerActive && !timerPaused {
        var remaining := RunningSeconds(timerTotalSeconds.n, timerStartTime, now);
        if remaining > 0 {
          change := ShowClock(Clock.PaddedClock(remaining));
        } else {
          change := ShowOptions;
          ticking := false;
          timerActive := false;
        }
      }
    }

    /**
     * togglePause() (timer-standalone.js:136-181): returns the pause button's
     * new label, None when the timer is not active.
     */
    method TogglePause(now: int) returns (caption: Option<string>)
      requires Valid()
      modifies this
      ensures Valid()
      ensures Stored() == AfterToggle(old(Stored()), now)
      ensures !old(timerActive) ==> caption.None? && ticking == old(ticking)
      ensures old(timerActive) && !old(timerPaused) ==> caption == Some("Resume") && !ticking
      ensures old(timerActive) && old(timerPaused) ==> caption == Some("Pause") && ticking
    {
      if !timerActive {
        return None;
      }
      if !timerPaused {
        var pausedSeconds := RunningSeconds(timerTotalSeconds.n, timerStartTime, now);
        timerPaused, timerPausedTime, timerPausedSeconds := true, Num(now), Num(pausedSeconds);
        caption := Some("Resume");
        ticking := false;
      } else {
        var pausedSeconds := Or(timerPausedSeconds, timerTotalSeconds);
        timerPaused, timerStartTime, timerTotalSeconds := false, Num(now), pausedSeconds;
        timerPausedTime, timerPausedSeconds := Null, Null;
        caption := Some("Pause");
        ticking := true;
      }
    }

    /** startTimer(minutes) (timer-standalone.js:183-201): stores a fresh countdown, then runs updateTimerStatus. */
    method StartTimer(minutes: int, now: int) returns (view: View)
      requires Valid()
      modifies this
      ensures Valid()
      ensures Stored() == AfterStatus(AfterStart(old(Stored()), minutes, now), now)
      ensures view == StatusView(AfterStart(old(Stored()), minutes, now), now)
      ensures ticking == view.Status?
    {
      timerActive, timerMinutes, timerStartTime, timerTotalSeconds := true, Num(minutes), Num(now), Num(minutes * 60);
      timerPaused, timerPausedTime, timerPausedSeconds := false, Null, Null;
      view := UpdateTimerStatus(now);
    }

    /** stopTimer() (timer-standalone.js:203-215): marks the timer inactive and unpaused and shows the buttons. */
    method StopTimer() returns (view: View)
      requires Valid()
      modifies this
      ensures Valid()
      ensures Stored() == AfterStop(old(Stored()))
      ensures view == Options && !ticking
    {
      timerActive, timerPaused := false, false;
      view := Options;
      ticking := false;
    }
  }
}

=== FILE: wrappers.dfy ===
/** The optional-value datatype shared by the modules of this project. */
module Wrappers {

  /** A value that may be absent (JavaScript `null`). */
  datatype Option<+T> = None | Some(value: T)
}
